=== FILE: README.md ===
# Duplicate File Checker, modelled in Dafny

This project models `duplicate_checker.py`, a script that finds files with identical
contents and can delete redundant copies. It has four stages:

- **Hashing** (`hashing.dfy`, `hash_file`): a file is read in blocks of `2**bits` bytes.
  Each block goes to an MD5 object until a read comes back empty. The hex digest is the
  file's key. The model has a file object with a read offset (`BinaryFile`) and a digest
  object (`Hasher`). `HashFile` runs the source's loop over them.
- **Scanning** (`scanning.dfy`, `find_duplicates`): every file found is hashed, and its
  path is appended to the list under its digest in a dictionary the caller supplies. The
  dictionary is updated in place (`DuplicateDict`), and Python dictionaries keep key
  insertion order. So the dictionary's value (`DigestDict`) is the key sequence plus the
  list under each key. `Scan` is the fold, as a function.
- **Reporting** (`reporting.dfy`, `print_results`): returns the lists with more than one
  path, in key order.
- **Deletion** (`deletion.dfy`, `delete_copies` and `_delete`):
  - Each group is sorted by modification time: newest first when new files are kept,
    oldest first otherwise.
  - A group whose members do not all have the same suffix is skipped.
  - Every member after the first is deleted. It is deleted unconditionally under
    "delete all", and otherwise unless the answer to its prompt lowercases to `n`.

  The result is the sequence of paths handed to `_delete`.

`pipeline.dfy` composes the stages in lemmas about concrete inputs and states the
consequences of the two findings below.

The environment is passed in as parameters:

- the digest algorithm is a function `seq<byte> -> Digest`, about which nothing is assumed;
- the directory walk is a sequence of `(path, content)` records;
- modification times, the `suffix` property and the operator's answers are functions of
  the path;
- the two answers read at the start of `delete_copies` are booleans.

Where the program's documentation and its code differ, the model follows the code:

- With new files not kept, the code sorts oldest first and keeps index 0. So the older
  copy is kept and the newer one is deleted (`EndToEndKeepsOldest`).
- The digest dictionary holds lists, and the code appends without checking for repeats,
  so one path can be listed twice under a digest. The documentation describes a set.
- The suffix compared is `Path.suffix`. It is the empty string when a name has no
  extension, not the bare file name.
- The documentation describes splitting groups by directory and extension, and JSON
  persistence as separate components. This revision has no group splitting. JSON
  loading and saving are outside the modelled core (see below).

## Model

| member | source | states |
|---|---|---|
| Hashing.BinaryFile.Read | duplicate_checker.py:11 | `f.read(n)` returns the next up-to-`n` bytes from the offset and advances the offset by their number. At the end of the file the result is empty. |
| Hashing.Hasher.Update | duplicate_checker.py:13 | The digest object now covers the old bytes followed by the block. The block is logged in order. |
| Hashing.BinaryFile.Open | duplicate_checker.py:9 | `path.open('rb')` gives a file positioned at its first byte. |
| Hashing.Hasher.constructor | duplicate_checker.py:10 | `hashlib.md5()` gives a digest object that has been fed nothing. |
| Hashing.Hasher.HexDigest | duplicate_checker.py:15 | `hexdigest()` is the digest of every block received, joined in the order received. |
| Hashing.ConcatSnoc | duplicate_checker.py:13 | Feeding one more block appends its bytes to the bytes fed so far. |
| Hashing.HashFile | duplicate_checker.py:7-15 | The result is the digest of the whole content, for every `bits`. The blocks fed are exactly `Blocks(content, 0, 2^bits)`, and their concatenation is the content. |
| Hashing.BlocksCoverContent | duplicate_checker.py:11-14 | The blocks read from any offset, joined in order, are exactly the rest of the content, for any block size. |
| Hashing.BlocksBounded | duplicate_checker.py:12-14 | Every block fed is non-empty and at most `2^bits` bytes. So each pass of the loop consumes input and the loop ends. |
| Hashing.BlocksCount | duplicate_checker.py:11-14 | The number of updates is the ceiling of the length divided by the block size. |
| Scanning.Insert | duplicate_checker.py:22-25 | After one step, the list under the file's digest has the path appended and every other list is unchanged. A new digest is added at the end of the key order. Well-formedness is preserved. |
| Scanning.DuplicateDict.constructor | duplicate_checker.py:18 | The dictionary starts as the caller's value: empty or loaded results. |
| Scanning.DuplicateDict.Add | duplicate_checker.py:22-25 | The in-place update of the dictionary equals `Insert` on its old value and keeps it well formed. |
| Scanning.FindDuplicates | duplicate_checker.py:18-26 | Updates the caller's dictionary in place and returns that same object. Its new value is the fold `Scan` of the files, in order, over the old value. |
| Scanning.Scan | duplicate_checker.py:20-25 | The fold keeps the dictionary well formed: keys are distinct, and the key sequence and the map agree. |
| Scanning.ScanLists | duplicate_checker.py:20-25 | The list under every digest is the old list followed by the scanned paths with that digest, in scan order. |
| Scanning.ScanKeys | duplicate_checker.py:22-25 | The keys are the old keys plus the digests of the scanned files. The old key order is a prefix of the new one. |
| Scanning.ScanRecordsEveryFile | duplicate_checker.py:20-25 | Every scanned path is listed under its own digest. |
| Scanning.ScanExtendsPrior | duplicate_checker.py:18-25 | Scanning into saved results keeps them: old keys keep their places, every old list is a prefix of its new list, and lists under digests no scanned file has are unchanged. |
| Scanning.ScanKeepsNonEmpty | duplicate_checker.py:22-25 | If no list was empty before, none is empty after a scan. |
| Scanning.InsertCountsPath | duplicate_checker.py:22-25 | One step adds exactly one path to the total. |
| Scanning.ScanCountsPaths | duplicate_checker.py:20-25 | A scan adds exactly one path per scanned file to the total number of listed paths. |
| Scanning.InsertDistinct | duplicate_checker.py:22-25 | The corrected step lists the path under its digest, leaves every other list unchanged, adds the digest to the keys, keeps a repeat-free list repeat-free, and keeps the dictionary well formed. |
| Scanning.ScanDistinct | duplicate_checker.py:22-25 | The corrected fold, which never lists a path twice under one digest, also keeps the dictionary well formed. |
| Scanning.ScanDistinctNoRepeats | duplicate_checker.py:22-25 | The corrected fold keeps every list free of repeated paths. |
| Scanning.ScanDistinctOrigin | duplicate_checker.py:18-25 | A path listed after the corrected fold was listed under that digest before the scan, or belongs to a scanned file with that digest. |
| Scanning.ScanDistinctOneDigest | duplicate_checker.py:18-25 | When the saved results agree with the files scanned now, the corrected fold lists every path under one digest only. |
| Scanning.ScanDistinctSameMembers | duplicate_checker.py:22-25 | The corrected fold lists the same paths under the same digests as the source's fold. Only the repetitions differ. |
| Reporting.DuplicateGroups | duplicate_checker.py:28-38 | Every returned group has more than one path and is some key's list. Every list with more than one path is returned. The result is empty exactly when no list has more than one path. The groups come in key order (it is `GroupsOf` over the key sequence). |
| Reporting.GroupsOf | duplicate_checker.py:29 | The filter yields at most one group per key. |
| Reporting.GroupsOfSound | duplicate_checker.py:29 | Every group the filter yields has more than one path and is the list of one of the keys, and the list of every key with more than one path is yielded. |
| Reporting.GroupsOfDisjoint | duplicate_checker.py:29 | With distinct keys and no path under two keys, the reported groups share no path. |
| Reporting.GroupsOfAppend | duplicate_checker.py:29 | The groups of a key sequence are the groups of its first part followed by those of the rest. |
| Reporting.GroupsOfKeyOrder | duplicate_checker.py:29 | Each multi-path key contributes its list at its own place in the key order. |
| Deletion.SortByMtime | duplicate_checker.py:44 | Sorting keeps the number of files in the group. |
| Deletion.SortByMtimeSorts | duplicate_checker.py:44 | The sorted group is ordered by modification time (newest first when `keep_new`, oldest first otherwise) and is a permutation of the group. |
| Deletion.SortIsStable | duplicate_checker.py:44 | The sort is stable: files with equal times keep their order. So it agrees with `list.sort`. |
| Deletion.InsertKeepsTies | duplicate_checker.py:44 | One insertion step puts the new file before its ties and leaves the order of the others unchanged. |
| Deletion.KeptIsFirstExtreme | duplicate_checker.py:44-48 | The kept file (index 0) is a member of the group. It is the newest when `keep_new` and the oldest otherwise, and among files with its time it came first in the group. |
| Deletion.SameSuffixIff | duplicate_checker.py:46 | There is one distinct suffix exactly when the group is non-empty and every member has the first member's suffix. |
| Deletion.SuffixesOfPermutation | duplicate_checker.py:44-46 | Sorting does not change the set of suffixes. |
| Deletion.LowerIsN | duplicate_checker.py:51 | An answer lowercases to `n` exactly when it is `n` or `N`. |
| Deletion.Confirmed | duplicate_checker.py:49-52 | A candidate is deleted exactly when "delete all" was chosen or its own answer is neither `n` nor `N`. |
| Deletion.Chosen | duplicate_checker.py:48-54 | No more paths are deleted than there are candidates. |
| Deletion.ChosenAppend | duplicate_checker.py:48-54 | Candidates are decided one at a time, in order: the deletions for a list are those for its first part followed by those for the rest. |
| Deletion.ChosenCounts | duplicate_checker.py:48-54 | Each candidate is deleted as often as it is listed when it is confirmed, and never otherwise. |
| Deletion.ChosenAll | duplicate_checker.py:49-50 | Under "delete all", every candidate is deleted, in sorted order. |
| Deletion.GroupDeletions | duplicate_checker.py:44-54 | Only members of the group are deleted, each at most as often as it is listed, and fewer paths are deleted than the group lists. The kept file is never deleted when no path is listed twice (`KeptCopySurvives`). When a path is listed twice, it can be (`Pipeline.DoubledGroupDeletions`). |
| Deletion.MixedSuffixDeletesNothing | duplicate_checker.py:46 | A group with more than one distinct suffix yields no deletion, whatever the answers. |
| Deletion.SameSuffixDeletions | duplicate_checker.py:44-54 | For a single-suffix group: the sorted group is non-empty, each member after the first is deleted exactly when confirmed, and under "delete all" the deletions are exactly `sorted[1:]`. |
| Deletion.KeptCopySurvives | duplicate_checker.py:44-54 | When no path is listed twice in a group, the kept file is never deleted. |
| Deletion.AllDeletionsWithin | duplicate_checker.py:43-54 | Every deleted path is a member of one of the groups. |
| Deletion.KeptNeverDeleted | duplicate_checker.py:43-54 | When the groups are non-empty, repeat-free and share no path, the file each group keeps is deleted neither by its own group nor by any other. |
| Deletion.DeleteCandidates | duplicate_checker.py:48-54 | The candidate loop deletes exactly the confirmed members after index 0, in order. |
| Deletion.DeleteCopies | duplicate_checker.py:43-60 | The loop over groups hands `_delete` exactly the per-group deletions, group after group. |
| Deletion.DeleteCopiesAsWritten | duplicate_checker.py:44-46 | As written, `delete_copies` completes only on an empty group list, and then it deletes nothing. Any group makes it raise. |
| Deletion.AsWrittenDeletesNothing | duplicate_checker.py:44-46 | On two copies, the code as written raises, while the intended behaviour deletes the newer copy. |
| Pipeline.EndToEndKeepsOldest | duplicate_checker.py:18-54 | `report.txt` and `backup/report.txt` share content and `notes.txt` differs. There is one group of two, and with old files kept under "delete all" only the newer copy is deleted. |
| Pipeline.RescanDeletesKeptCopy | duplicate_checker.py:22-23 | Rescanning a directory into its saved results lists each path twice. With `a` strictly older than `b`, old files kept and "delete all", the corrected deletion stage hands `a`, `b`, `b` to `_delete`, so no copy is left. |
| Pipeline.DistinctScanKeepsACopy | duplicate_checker.py:22-54 | With the corrected fold, merged into repeat-free results, no group deletes its own first file after sorting, whatever the answers. This is per group: another group may still delete that file. |
| Pipeline.ConsistentScanKeepsACopy | duplicate_checker.py:18-54 | With the corrected fold, and saved results that agree with the files scanned now, the whole deletion stage never deletes the file any group keeps, whatever the answers. So every reported content keeps a copy. |

## Left out

- The MD5 algorithm: the digest is a function parameter. Equal contents therefore get
  equal digests, but nothing is said about collisions.
- The directory walk (`rglob`, `is_file`) and file reading: the scanned files are a
  sequence of path and content records in walk order, and a read never fails.
- `hash_file`'s `bits` is a natural number. A negative `bits` would make `2**bits` a
  float in Python, and that case is not modelled.
- `os.path.getmtime` is a total function of the path, to real numbers. A file that
  vanishes and makes it raise is not modelled.
- `print` and `os.remove` in `_delete`: deletions are the returned sequence of paths. A
  failing removal is not modelled, and the dictionary is not updated after deletions,
  as in the source.
- `input()`: the two answers read at lines 41-42 are booleans `keepNew` and `deleteAll`,
  and the parsing of those two answers is not modelled. Per-file answers are a function
  of the path. So a path listed twice gets the same answer both times.
- `Deletion.LowerIsN`: `str.lower()` is modelled on ASCII letters only. Other case
  mappings of Unicode are not modelled.
- JSON loading and saving (`_open_duplicates_file`, `_save_duplicates`, lines 62-68):
  saved results enter the model only as the initial dictionary value.
- The `__main__` block (lines 71-92) is not modelled. This includes the re-raised
  `FileNotFoundError` and the use of `duplicate_file_list` at line 92 when no results
  were found.
- `delete_copies` sorts each list in place, and that list is the dictionary's own list.
  `DeleteCopies` sorts a copy, so the reordering of the dictionary's lists is not
  modelled.
- Pipeline.ConsistentScanKeepsACopy: assumes the saved results agree with the files on
  disk. If a file changed after the save, a resumed scan can list its path under both
  its old and its new digest. The other group can then delete it, and a content can
  lose every copy. For example, saved `{h1: [a, b]}`, `a` since rewritten to `c`'s
  content, `c` older than `a` and `a` older than `b`. This stale case is not covered.
  The lemma's hypotheses constrain only the paths scanned now. Saved paths outside the
  rescanned directory (line 67 saves to the current directory, and line 81 rescans the
  parent of the `.json` file) are assumed to still hold their group's content, and
  "every reported content keeps a copy" rests on that assumption.
- The mutable default argument `duplicate_dict={}` of `find_duplicates`, shared between
  calls, is not modelled: the caller always passes the dictionary.

## Findings

| source | as written | input that shows it | evidently intended | confidence | as-written member | corrected member |
|---|---|---|---|---|---|---|
| duplicate_checker.py:44-46 | `list.sort` returns `None`, which line 44 assigns to the group. Line 46 then iterates over `None`, and it also calls the string property `suffix`. So the first group raises TypeError and nothing is deleted. | One group `["/d/a.txt", "/d/b.txt"]`, `b` newer, old files kept, "delete all" | Sort the group in place and compare the suffix strings, so the newer copy `/d/b.txt` is deleted | not executed | Deletion.AsWrittenDeletesNothing | Deletion.DeleteCopies |
| duplicate_checker.py:22-23 | A path is appended even when it is already listed under its digest. Results loaded from a saved file and then rescanned list every path twice. The sorted group then has the kept file again at index 1, so "delete all" deletes it too. This shows once lines 44 and 46 are corrected (first finding). | `duplicates.json` saved (line 67 writes it to the current directory) inside the directory it describes, holding `{h: [a, b]}`. The script is then run on that `.json` file: line 81 sets the directory to its parent, and the operator answers `y` when asked to search it again (line 82), so line 83 rescans it. `a` and `b` both have content `h`, `a` is strictly older than `b`, old files are kept and "delete all" is chosen. `_delete` gets `a`, `b`, `b`: both files are removed, and the second removal of `b` raises FileNotFoundError (line 60) | Add a path only if it is not listed yet. Then no group deletes its own kept file, and when the saved results still agree with the files on disk every content keeps a copy | not executed | Pipeline.RescanDeletesKeptCopy | Pipeline.DistinctScanKeepsACopy, Pipeline.ConsistentScanKeepsACopy |

=== FILE: deletion.dfy ===
/**
 * The deletion decision, `delete_copies` and `_delete`: each duplicate group is sorted by
 * modification time (newest first when new files are kept, oldest first otherwise), a
 * group whose members do not all have the same suffix is left alone, and every member
 * after the first is deleted, either unconditionally ("delete all") or unless the answer
 * to its prompt is "n" in either case.
 *
 * The filesystem is replaced by inputs: modification times are a function `mtime`, the
 * `Path.suffix` property is a function `suffix`, the operator's answers are the booleans
 * `keepNew` and `deleteAll` and a function `answer` from path to the typed reply, and the
 * result is the sequence of paths passed to `_delete`, in order.
 *
 * As written, lines 44 and 46 of duplicate_checker.py raise before anything is deleted
 * (see DeleteCopiesAsWritten). Everything else here models the evident intent: the group
 * is sorted in place and the sorted list is used, and suffix strings are compared.
 */
module Deletion {
  import opened Hashing
  import opened Scanning
  import opened Reporting

  /** `a` may stand before `b` in a sorted group. */
  predicate Precedes(mtime: Path -> real, keepNew: bool, a: Path, b: Path)
  {
    if keepNew then mtime(a) >= mtime(b) else mtime(a) <= mtime(b)
  }

  /** Newest first when `keepNew`, oldest first otherwise. */
  predicate Ordered(s: seq<Path>, mtime: Path -> real, keepNew: bool)
  {
    forall i, j :: 0 <= i < j < |s| ==> Precedes(mtime, keepNew, s[i], s[j])
  }

  /** Insert `x` before the first element it may precede (so before all its ties). */
  function InsertByMtime(x: Path, s: seq<Path>, mtime: Path -> real, keepNew: bool): (r: seq<Path>)
    ensures |r| == |s| + 1
  {
    if s == [] || Precedes(mtime, keepNew, x, s[0]) then [x] + s
    else [s[0]] + InsertByMtime(x, s[1..], mtime, keepNew)
  }

  /** Inserting adds `x` and keeps every other member. */
  lemma {:induction false} InsertByMtimeCount(x: Path, s: seq<Path>, mtime: Path -> real, keepNew: bool)
    ensures multiset(InsertByMtime(x, s, mtime, keepNew)) == multiset(s) + multiset{x}
  {
    if s != [] && !Precedes(mtime, keepNew, x, s[0]) {
      InsertByMtimeCount(x, s[1..], mtime, keepNew);
      assert s == [s[0]] + s[1..];
    }
  }

  /** An element that may precede every member of an ordered sequence may go in front of it. */
  lemma ConsOrdered(y: Path, r: seq<Path>, mtime: Path -> real, keepNew: bool)
    requires Ordered(r, mtime, keepNew)
    requires forall k :: 0 <= k < |r| ==> Precedes(mtime, keepNew, y, r[k])
    ensures Ordered([y] + r, mtime, keepNew)
  {
    var c := [y] + r;
    forall i, j | 0 <= i < j < |c|
      ensures Precedes(mtime, keepNew, c[i], c[j])
    {
      assert c[j] == r[j - 1];
      if i > 0 {
        assert c[i] == r[i - 1];
      }
    }
  }

  /** Inserting into an ordered group keeps it ordered. */
  lemma {:induction false} InsertKeepsOrder(x: Path, s: seq<Path>, mtime: Path -> real, keepNew: bool)
    requires Ordered(s, mtime, keepNew)
    ensures Ordered(InsertByMtime(x, s, mtime, keepNew), mtime, keepNew)
  {
    if s != [] && !Precedes(mtime, keepNew, x, s[0]) {
      var tail := s[1..];
      var rest := InsertByMtime(x, tail, mtime, keepNew);
      assert Ordered(rest, mtime, keepNew) by {
        assert Ordered(tail, mtime, keepNew) by {
          forall i, j | 0 <= i < j < |tail|
            ensures Precedes(mtime, keepNew, tail[i], tail[j])
          {
            assert tail[i] == s[i + 1] && tail[j] == s[j + 1];
          }
        }
        InsertKeepsOrder(x, tail, mtime, keepNew);
      }
      assert forall k :: 0 <= k < |rest| ==> Precedes(mtime, keepNew, s[0], rest[k]) by {
        InsertByMtimeCount(x, tail, mtime, keepNew);
        forall k | 0 <= k < |rest|
          ensures Precedes(mtime, keepNew, s[0], rest[k])
        {
          assert rest[k] in multiset(rest);
          if rest[k] != x {
            assert rest[k] in multiset(tail);
            var m :| 0 <= m < |tail| && tail[m] == rest[k];
            assert s[m + 1] == rest[k];
          }
        }
      }
      ConsOrdered(s[0], rest, mtime, keepNew);
    }
  }

  /**
   * `list.sort(key=os.path.getmtime, reverse=keep_new)` (duplicate_checker.py:44), as an
   * insertion sort that places each element before its ties, so equal times keep their
   * order (see SortIsStable).
   */
  function SortByMtime(group: seq<Path>, mtime: Path -> real, keepNew: bool): (sorted: seq<Path>)
    ensures |sorted| == |group|
  {
    if group == [] then []
    else InsertByMtime(group[0], SortByMtime(group[1..], mtime, keepNew), mtime, keepNew)
  }

  /** The sort orders the group (newest first when `keepNew`) and keeps its members. */
  lemma {:induction false} SortByMtimeSorts(group: seq<Path>, mtime: Path -> real, keepNew: bool)
    ensures Ordered(SortByMtime(group, mtime, keepNew), mtime, keepNew)
    ensures multiset(SortByMtime(group, mtime, keepNew)) == multiset(group)
  {
    if group != [] {
      var rest := SortByMtime(group[1..], mtime, keepNew);
      SortByMtimeSorts(group[1..], mtime, keepNew);
      InsertKeepsOrder(group[0], rest, mtime, keepNew);
      InsertByMtimeCount(group[0], rest, mtime, keepNew);
      assert group == [group[0]] + group[1..];
    }
  }

  /** `[y]` when `y` was modified at time `t`, empty otherwise. */
  function Tie(y: Path, mtime: Path -> real, t: real): (tie: seq<Path>)
  {
    if mtime(y) == t then [y] else []
  }

  /** The members of `s` modified at time `t`, in order. */
  function WithMtime(s: seq<Path>, mtime: Path -> real, t: real): (ties: seq<Path>)
  {
    if s == [] then [] else Tie(s[0], mtime, t) + WithMtime(s[1..], mtime, t)
  }

  /** The filter over one more element in front. */
  lemma WithMtimeCons(y: Path, s: seq<Path>, mtime: Path -> real, t: real)
    ensures WithMtime([y] + s, mtime, t) == Tie(y, mtime, t) + WithMtime(s, mtime, t)
  {
    assert ([y] + s)[0] == y && ([y] + s)[1..] == s;
  }

  /** Two sequences of which one is empty can be put in front in either order. */
  lemma SwapEmpty(u: seq<Path>, v: seq<Path>, w: seq<Path>)
    requires u == [] || v == []
    ensures u + (v + w) == v + (u + w)
  {
    if u == [] {
      assert u + (v + w) == v + w == v + (u + w);
    } else {
      assert u + (v + w) == u + w == v + (u + w);
    }
  }

  lemma {:induction false} InsertKeepsTies(x: Path, s: seq<Path>, mtime: Path -> real, keepNew: bool, t: real)
    ensures WithMtime(InsertByMtime(x, s, mtime, keepNew), mtime, t) == Tie(x, mtime, t) + WithMtime(s, mtime, t)
  {
    if s == [] || Precedes(mtime, keepNew, x, s[0]) {
      WithMtimeCons(x, s, mtime, t);
    } else {
      var rest := InsertByMtime(x, s[1..], mtime, keepNew);
      var w := WithMtime(s[1..], mtime, t);
      assert WithMtime(rest, mtime, t) == Tie(x, mtime, t) + w by {
        InsertKeepsTies(x, s[1..], mtime, keepNew, t);
      }
      assert WithMtime(InsertByMtime(x, s, mtime, keepNew), mtime, t) == Tie(s[0], mtime, t) + WithMtime(rest, mtime, t) by {
        WithMtimeCons(s[0], rest, mtime, t);
      }
      assert mtime(x) != mtime(s[0]);
      SwapEmpty(Tie(s[0], mtime, t), Tie(x, mtime, t), w);
    }
  }

  /** The sort is stable: files with equal modification times keep their relative order. */
  lemma {:induction false} SortIsStable(group: seq<Path>, mtime: Path -> real, keepNew: bool, t: real)
    ensures WithMtime(SortByMtime(group, mtime, keepNew), mtime, t) == WithMtime(group, mtime, t)
  {
    if group != [] {
      SortIsStable(group[1..], mtime, keepNew, t);
      InsertKeepsTies(group[0], SortByMtime(group[1..], mtime, keepNew), mtime, keepNew, t);
    }
  }

  /**
   * The kept file (index 0 after sorting) is a member of the group, is the newest when
   * `keepNew` and the oldest otherwise, and among the files with that same time it is the
   * one that came first in the group.
   */
  lemma KeptIsFirstExtreme(group: seq<Path>, mtime: Path -> real, keepNew: bool)
    requires group != []
    ensures SortByMtime(group, mtime, keepNew)[0] in group
    ensures forall p :: p in group ==> Precedes(mtime, keepNew, SortByMtime(group, mtime, keepNew)[0], p)
    ensures var kept := SortByMtime(group, mtime, keepNew)[0];
      WithMtime(group, mtime, mtime(kept)) != [] && WithMtime(group, mtime, mtime(kept))[0] == kept
  {
    var sorted := SortByMtime(group, mtime, keepNew);
    SortByMtimeSorts(group, mtime, keepNew);
    assert sorted[0] in multiset(group);
    forall p | p in group
      ensures Precedes(mtime, keepNew, sorted[0], p)
    {
      assert p in multiset(sorted);
      var j :| 0 <= j < |sorted| && sorted[j] == p;
    }
    SortIsStable(group, mtime, keepNew, mtime(sorted[0]));
  }

  /** The suffixes of the group's members (`{Path(path).suffix for path in ...}`). */
  function Suffixes(group: seq<Path>, suffix: Path -> string): (suffixes: set<string>)
  {
    set p | p in group :: suffix(p)
  }

  /** The safety check of duplicate_checker.py:46: exactly one distinct suffix. */
  predicate SameSuffix(group: seq<Path>, suffix: Path -> string)
  {
    |Suffixes(group, suffix)| == 1
  }

  /** One distinct suffix means: the group is not empty and all share the first one's suffix. */
  lemma SameSuffixIff(group: seq<Path>, suffix: Path -> string)
    ensures SameSuffix(group, suffix) <==>
      group != [] && forall i :: 0 <= i < |group| ==> suffix(group[i]) == suffix(group[0])
  {
    var s := Suffixes(group, suffix);
    if group == [] {
      assert s == {};
    } else if forall i :: 0 <= i < |group| ==> suffix(group[i]) == suffix(group[0]) {
      assert s == {suffix(group[0])};
    } else {
      var i :| 0 <= i < |group| && suffix(group[i]) != suffix(group[0]);
      assert {suffix(group[0]), suffix(group[i])} <= s;
      assert |s - {suffix(group[0])}| >= 1 by {
        assert suffix(group[i]) in s - {suffix(group[0])};
      }
    }
  }

  /** Reordering a group does not change its suffixes. */
  lemma SuffixesOfPermutation(a: seq<Path>, b: seq<Path>, suffix: Path -> string)
    requires multiset(a) == multiset(b)
    ensures Suffixes(a, suffix) == Suffixes(b, suffix)
  {
    forall x | x in Suffixes(a, suffix)
      ensures x in Suffixes(b, suffix)
    {
      var p :| p in a && suffix(p) == x;
      assert p in multiset(b);
    }
    forall x | x in Suffixes(b, suffix)
      ensures x in Suffixes(a, suffix)
    {
      var p :| p in b && suffix(p) == x;
      assert p in multiset(a);
    }
  }

  function LowerChar(c: char): (lower: char)
  {
    if 'A' <= c <= 'Z' then (c as int - 'A' as int + 'a' as int) as char else c
  }

  /** `str.lower()`, on ASCII letters. */
  function Lower(s: string): (lower: string)
  {
    seq(|s|, i requires 0 <= i < |s| => LowerChar(s[i]))
  }

  /** An answer lowercases to "n" exactly when it is "n" or "N". */
  lemma LowerIsN(s: string)
    ensures Lower(s) == "n" <==> s == "n" || s == "N"
  {
    if Lower(s) == "n" {
      assert |s| == 1 && Lower(s)[0] == LowerChar(s[0]) == 'n';
    }
    if s == "n" || s == "N" {
      assert Lower(s)[0] == 'n';
    }
  }

  /**
   * duplicate_checker.py:49-52: a candidate is deleted when "delete all" was chosen, or
   * when the answer to its own prompt does not lowercase to "n".
   */
  predicate Confirmed(p: Path, deleteAll: bool, answer: Path -> string): (confirmed: bool)
    ensures confirmed <==> deleteAll || (answer(p) != "n" && answer(p) != "N")
  {
    LowerIsN(answer(p));
    deleteAll || Lower(answer(p)) != "n"
  }

  /** `duplicates_files[1:]`: every member but the kept one. */
  function Candidates(sorted: seq<Path>): (cands: seq<Path>)
  {
    if sorted == [] then [] else sorted[1..]
  }

  /** The candidates are members of the list, and one member is left out when there is any. */
  lemma CandidatesWithin(sorted: seq<Path>)
    ensures multiset(Candidates(sorted)) <= multiset(sorted)
    ensures sorted != [] ==> |Candidates(sorted)| < |sorted|
  {
    if sorted != [] {
      assert sorted == [sorted[0]] + sorted[1..];
    }
  }

  /** The candidates that are deleted, in order: never more of them than there are candidates. */
  function Chosen(cands: seq<Path>, deleteAll: bool, answer: Path -> string): (deleted: seq<Path>)
    ensures |deleted| <= |cands|
  {
    if cands == [] then []
    else
      var last := cands[|cands| - 1];
      Chosen(cands[..|cands| - 1], deleteAll, answer) + (if Confirmed(last, deleteAll, answer) then [last] else [])
  }

  /**
   * Candidates are decided one at a time and in order: the deletions for a list of
   * candidates are those for its first part followed by those for the rest.
   */
  lemma {:induction false} ChosenAppend(a: seq<Path>, b: seq<Path>, deleteAll: bool, answer: Path -> string)
    ensures Chosen(a + b, deleteAll, answer) == Chosen(a, deleteAll, answer) + Chosen(b, deleteAll, answer)
    decreases |b|
  {
    if b == [] {
      assert a + b == a;
    } else {
      var init, last := b[..|b| - 1], b[|b| - 1];
      var tail := if Confirmed(last, deleteAll, answer) then [last] else [];
      assert Chosen(a + b, deleteAll, answer) == Chosen(a + init, deleteAll, answer) + tail by {
        assert (a + b)[..|a + b| - 1] == a + init;
        assert (a + b)[|a + b| - 1] == last;
      }
      ChosenAppend(a, init, deleteAll, answer);
      assert Chosen(b, deleteAll, answer) == Chosen(init, deleteAll, answer) + tail;
      assert (Chosen(a, deleteAll, answer) + Chosen(init, deleteAll, answer)) + tail ==
             Chosen(a, deleteAll, answer) + (Chosen(init, deleteAll, answer) + tail);
    }
  }

  /**
   * Each candidate is deleted as often as it occurs among the candidates when it is
   * confirmed, and never otherwise.
   */
  lemma {:induction false} ChosenCounts(cands: seq<Path>, deleteAll: bool, answer: Path -> string)
    ensures forall p :: multiset(Chosen(cands, deleteAll, answer))[p] ==
                        (if Confirmed(p, deleteAll, answer) then multiset(cands)[p] else 0)
  {
    if cands != [] {
      var init, last := cands[..|cands| - 1], cands[|cands| - 1];
      ChosenCounts(init, deleteAll, answer);
      assert cands == init + [last];
    }
  }

  /** Only candidates are chosen, each at most as often as it is a candidate. */
  lemma ChosenWithin(cands: seq<Path>, deleteAll: bool, answer: Path -> string)
    ensures multiset(Chosen(cands, deleteAll, answer)) <= multiset(cands)
  {
    ChosenCounts(cands, deleteAll, answer);
  }

  /** With "delete all", every candidate is deleted, in order. */
  lemma {:induction false} ChosenAll(cands: seq<Path>, answer: Path -> string)
    ensures Chosen(cands, true, answer) == cands
  {
    if cands != [] {
      ChosenAll(cands[..|cands| - 1], answer);
      assert cands == cands[..|cands| - 1] + [cands[|cands| - 1]];
    }
  }

  /**
   * The paths deleted for one duplicate group (duplicate_checker.py:44-54): only members of
   * the group, and fewer paths than the group lists. The kept file is never deleted when
   * no path is listed twice (KeptCopySurvives); when a path is listed twice, it can be
   * (DoubledGroupDeletions).
   */
  function GroupDeletions(group: seq<Path>, mtime: Path -> real, suffix: Path -> string,
                          keepNew: bool, deleteAll: bool, answer: Path -> string): (deleted: seq<Path>)
    ensures multiset(deleted) <= multiset(group)
    ensures group != [] ==> |deleted| < |group|
  {
    var sorted := SortByMtime(group, mtime, keepNew);
    SortByMtimeSorts(group, mtime, keepNew);
    CandidatesWithin(sorted);
    ChosenWithin(Candidates(sorted), deleteAll, answer);
    if SameSuffix(sorted, suffix) then Chosen(Candidates(sorted), deleteAll, answer) else []
  }

  /** A group whose members do not all share one suffix yields no deletion. */
  lemma MixedSuffixDeletesNothing(group: seq<Path>, mtime: Path -> real, suffix: Path -> string,
                                  keepNew: bool, deleteAll: bool, answer: Path -> string)
    requires !SameSuffix(group, suffix)
    ensures GroupDeletions(group, mtime, suffix, keepNew, deleteAll, answer) == []
  {
    SortByMtimeSorts(group, mtime, keepNew);
    SuffixesOfPermutation(group, SortByMtime(group, mtime, keepNew), suffix);
  }

  /**
   * In a group whose members share one suffix, every member after the kept one is
   * deleted exactly when it is confirmed (as often as it is listed), nothing else is
   * deleted, and with "delete all" the deletions are all of them in sorted order.
   */
  lemma SameSuffixDeletions(group: seq<Path>, mtime: Path -> real, suffix: Path -> string,
                            keepNew: bool, deleteAll: bool, answer: Path -> string)
    requires SameSuffix(group, suffix)
    ensures var sorted := SortByMtime(group, mtime, keepNew);
      var deleted := GroupDeletions(group, mtime, suffix, keepNew, deleteAll, answer);
      sorted != [] &&
      (forall p :: multiset(deleted)[p] ==
        (if Confirmed(p, deleteAll, answer) then multiset(sorted[1..])[p] else 0)) &&
      (deleteAll ==> deleted == sorted[1..])
  {
    var sorted := SortByMtime(group, mtime, keepNew);
    SortByMtimeSorts(group, mtime, keepNew);
    SuffixesOfPermutation(group, sorted, suffix);
    SameSuffixIff(sorted, suffix);
    ChosenCounts(sorted[1..], deleteAll, answer);
    ChosenAll(sorted[1..], answer);
  }

  /** Turns "no path is listed twice" into multiplicities. */
  lemma {:induction false} NoRepeatsCounts(s: seq<Path>)
    requires NoRepeats(s)
    ensures forall p :: multiset(s)[p] <= 1
  {
    if s != [] {
      assert s == [s[0]] + s[1..];
      assert NoRepeats(s[1..]) by {
        forall i, j | 0 <= i < j < |s[1..]|
          ensures s[1..][i] != s[1..][j]
        {
          assert s[1..][i] == s[i + 1] && s[1..][j] == s[j + 1];
        }
      }
      NoRepeatsCounts(s[1..]);
      forall j | 0 <= j < |s[1..]|
        ensures s[1..][j] != s[0]
      {
        assert s[1..][j] == s[j + 1];
      }
      assert s[0] !in s[1..];
    }
  }

  /** When no path is listed twice in a group, the kept file is never deleted. */
  lemma KeptCopySurvives(group: seq<Path>, mtime: Path -> real, suffix: Path -> string,
                         keepNew: bool, deleteAll: bool, answer: Path -> string)
    requires group != [] && NoRepeats(group)
    ensures SortByMtime(group, mtime, keepNew)[0] !in GroupDeletions(group, mtime, suffix, keepNew, deleteAll, answer)
  {
    var sorted := SortByMtime(group, mtime, keepNew);
    var kept := sorted[0];
    SortByMtimeSorts(group, mtime, keepNew);
    NoRepeatsCounts(group);
    assert multiset(sorted)[kept] <= 1;
    assert sorted == [kept] + sorted[1..];
    assert multiset(sorted) == multiset{kept} + multiset(sorted[1..]);
    assert multiset(sorted[1..])[kept] == 0;
    ChosenCounts(sorted[1..], deleteAll, answer);
  }

  /** All deletions, group after group. */
  function AllDeletions(groups: seq<seq<Path>>, mtime: Path -> real, suffix: Path -> string,
                        keepNew: bool, deleteAll: bool, answer: Path -> string): (deleted: seq<Path>)
  {
    if groups == [] then []
    else
      AllDeletions(groups[..|groups| - 1], mtime, suffix, keepNew, deleteAll, answer) +
      GroupDeletions(groups[|groups| - 1], mtime, suffix, keepNew, deleteAll, answer)
  }

  /** Every deleted path is a member of one of the groups. */
  lemma {:induction false} AllDeletionsWithin(groups: seq<seq<Path>>, mtime: Path -> real, suffix: Path -> string,
                                              keepNew: bool, deleteAll: bool, answer: Path -> string)
    ensures forall p :: p in AllDeletions(groups, mtime, suffix, keepNew, deleteAll, answer) ==>
                        exists g :: g in groups && p in g
  {
    if groups != [] {
      var init, last := groups[..|groups| - 1], groups[|groups| - 1];
      AllDeletionsWithin(init, mtime, suffix, keepNew, deleteAll, answer);
      var now := GroupDeletions(last, mtime, suffix, keepNew, deleteAll, answer);
      assert AllDeletions(groups, mtime, suffix, keepNew, deleteAll, answer) ==
             AllDeletions(init, mtime, suffix, keepNew, deleteAll, answer) + now;
      forall p | p in AllDeletions(groups, mtime, suffix, keepNew, deleteAll, answer)
        ensures exists g :: g in groups && p in g
      {
        if p in now {
          assert multiset(now)[p] > 0;
          assert last in groups && p in last;
        } else {
          var g :| g in init && p in g;
          assert g in groups;
        }
      }
    }
  }

  /** A group that shares no path with `g` never deletes the file `g` keeps. */
  lemma KeptNotInOtherGroup(g: seq<Path>, other: seq<Path>, mtime: Path -> real, suffix: Path -> string,
                            keepNew: bool, deleteAll: bool, answer: Path -> string)
    requires g != []
    requires forall p :: p in g ==> p !in other
    ensures SortByMtime(g, mtime, keepNew)[0] !in GroupDeletions(other, mtime, suffix, keepNew, deleteAll, answer)
  {
    var kept := SortByMtime(g, mtime, keepNew)[0];
    KeptIsFirstExtreme(g, mtime, keepNew);
    assert multiset(other)[kept] == 0;
  }

  /** Groups that share no path with `g` never delete the file `g` keeps. */
  lemma KeptNotInOtherGroups(groups: seq<seq<Path>>, g: seq<Path>, mtime: Path -> real, suffix: Path -> string,
                             keepNew: bool, deleteAll: bool, answer: Path -> string)
    requires g != []
    requires forall j, p :: 0 <= j < |groups| && p in groups[j] ==> p !in g
    ensures SortByMtime(g, mtime, keepNew)[0] !in AllDeletions(groups, mtime, suffix, keepNew, deleteAll, answer)
  {
    KeptIsFirstExtreme(g, mtime, keepNew);
    AllDeletionsWithin(groups, mtime, suffix, keepNew, deleteAll, answer);
  }

  /**
   * Across all groups: when every group is non-empty and repeat-free and no path belongs
   * to two groups, the file kept in each group is deleted neither by its own group nor
   * by any other.
   */
  lemma {:induction false} KeptNeverDeleted(groups: seq<seq<Path>>, mtime: Path -> real, suffix: Path -> string,
                                            keepNew: bool, deleteAll: bool, answer: Path -> string)
    requires forall i :: 0 <= i < |groups| ==> groups[i] != [] && NoRepeats(groups[i])
    requires Disjoint(groups)
    ensures forall i :: 0 <= i < |groups| ==>
      SortByMtime(groups[i], mtime, keepNew)[0] !in AllDeletions(groups, mtime, suffix, keepNew, deleteAll, answer)
  {
    if groups != [] {
      var n := |groups|;
      var init, last := groups[..n - 1], groups[n - 1];
      assert forall i :: 0 <= i < |init| ==> init[i] == groups[i];
      KeptNeverDeleted(init, mtime, suffix, keepNew, deleteAll, answer);
      var earlier := AllDeletions(init, mtime, suffix, keepNew, deleteAll, answer);
      var now := GroupDeletions(last, mtime, suffix, keepNew, deleteAll, answer);
      assert AllDeletions(groups, mtime, suffix, keepNew, deleteAll, answer) == earlier + now;
      forall i | 0 <= i < n
        ensures SortByMtime(groups[i], mtime, keepNew)[0] !in earlier + now
      {
        if i < n - 1 {
          KeptNotInOtherGroup(groups[i], last, mtime, suffix, keepNew, deleteAll, answer);
        } else {
          KeptCopySurvives(last, mtime, suffix, keepNew, deleteAll, answer);
          KeptNotInOtherGroups(init, last, mtime, suffix, keepNew, deleteAll, answer);
        }
      }
    }
  }

  /**
   * duplicate_checker.py:48-54: the candidates of one sorted group are offered in order;
   * each is deleted without asking under "delete all", otherwise unless its answer is "n".
   */
  method DeleteCandidates(sorted: seq<Path>, deleteAll: bool, answer: Path -> string)
    returns (deleted: seq<Path>)
    ensures deleted == Chosen(Candidates(sorted), deleteAll, answer)
  {
    deleted := [];
    if sorted == [] {
      return;
    }
    var j := 1;
    while j < |sorted|
      invariant 1 <= j <= |sorted|
      invariant deleted == Chosen(sorted[1..j], deleteAll, answer)
    {
      var duplicate := sorted[j];
      assert sorted[1..j + 1][..j - 1] == sorted[1..j];
      if deleteAll {
        deleted := deleted + [duplicate];
      } else if Lower(answer(duplicate)) != "n" {
        deleted := deleted + [duplicate];
      } else {
        // "Skipping file": nothing is deleted.
      }
      j := j + 1;
    }
    assert sorted[1..j] == Candidates(sorted);
  }

  /**
   * `delete_copies(duplicate_file_list)` with the evident intent of lines 44 and 46; the
   * result lists the paths handed to `_delete` (duplicate_checker.py:56-60), in order.
   */
  method DeleteCopies(groups: seq<seq<Path>>, mtime: Path -> real, suffix: Path -> string,
                      keepNew: bool, deleteAll: bool, answer: Path -> string)
    returns (deleted: seq<Path>)
    ensures deleted == AllDeletions(groups, mtime, suffix, keepNew, deleteAll, answer)
  {
    deleted := [];
    var g := 0;
    while g < |groups|
      invariant 0 <= g <= |groups|
      invariant deleted == AllDeletions(groups[..g], mtime, suffix, keepNew, deleteAll, answer)
    {
      // The source sorts the list in place; here the sorted list is a new value.
      var sorted := SortByMtime(groups[g], mtime, keepNew);
      if SameSuffix(sorted, suffix) {
        var chosen := DeleteCandidates(sorted, deleteAll, answer);
        deleted := deleted + chosen;
      }
      assert groups[..g + 1][..g] == groups[..g];
      g := g + 1;
    }
    assert groups[..|groups|] == groups;
  }

  /** How the source's `delete_copies` ends. */
  datatype Outcome = Completed(deleted: seq<Path>) | Raised(error: string)

  /**
   * `delete_copies` as written: line 44 rebinds the group to the `None` that `list.sort`
   * returns, and line 46 then iterates over it (and would call the string `suffix` as a
   * method), so the first group raises TypeError before any file is deleted; only an
   * empty group list gets through.
   */
  function DeleteCopiesAsWritten(groups: seq<seq<Path>>): (outcome: Outcome)
    ensures outcome.Completed? ==> outcome.deleted == []
    ensures outcome.Completed? <==> groups == []
  {
    if groups == [] then Completed([]) else Raised("TypeError")
  }

  /**
   * Two copies of one file, the second newer: as written nothing is deleted and the call
   * raises, while the intended behaviour deletes the newer copy.
   */
  lemma AsWrittenDeletesNothing()
    ensures var groups := [["/d/a.txt", "/d/b.txt"]];
      var mtime := (p: Path) => if p == "/d/a.txt" then 1.0 else 2.0;
      var suffix := (p: Path) => ".txt";
      var answer := (p: Path) => "";
      DeleteCopiesAsWritten(groups).Raised? &&
      AllDeletions(groups, mtime, suffix, false, true, answer) == ["/d/b.txt"]
  {
    var groups := [["/d/a.txt", "/d/b.txt"]];
    var mtime := (p: Path) => if p == "/d/a.txt" then 1.0 else 2.0;
    var suffix := (p: Path) => ".txt";
    var answer := (p: Path) => "";
    var sorted := SortByMtime(groups[0], mtime, false);
    assert SortByMtime(["/d/b.txt"], mtime, false) == ["/d/b.txt"];
    assert sorted == ["/d/a.txt", "/d/b.txt"];
    SameSuffixIff(sorted, suffix);
    ChosenAll(sorted[1..], answer);
    assert groups[..0] == [];
  }
}

=== FILE: hashing.dfy ===
/**
 * Chunked content hashing: `hash_file` reads a file in blocks of 2^bits bytes and feeds
 * each block to a digest object until a read comes back empty.
 *
 * The digest algorithm itself (MD5 from hashlib) is not modelled: a digest object is
 * represented by the bytes fed to it so far, and the hash function is a parameter
 * `digest: seq<byte> -> Digest` about which nothing is assumed.
 */
module Hashing {

  /** One byte of file content. */
  newtype byte = b: int | 0 <= b < 256

  /** A hexadecimal digest string, as returned by `hexdigest()`. */
  type Digest = string

  /** The exponent `find_duplicates` uses (the default of `bits`): blocks of 64 KiB. */
  const DefaultBits: nat := 16

  /** `2**bits`, the block size (duplicate_checker.py:8). */
  function Pow2(n: nat): (r: nat)
    ensures r >= 1
  {
    if n == 0 then 1 else 2 * Pow2(n - 1)
  }

  function Min(a: nat, b: nat): (m: nat)
  {
    if a <= b then a else b
  }

  /** All blocks, joined in order. */
  function Concat(blocks: seq<seq<byte>>): (joined: seq<byte>)
  {
    if blocks == [] then [] else blocks[0] + Concat(blocks[1..])
  }

  /** Joining one more block at the end appends its bytes. */
  lemma {:induction false} ConcatSnoc(blocks: seq<seq<byte>>, b: seq<byte>)
    ensures Concat(blocks + [b]) == Concat(blocks) + b
  {
    if blocks != [] {
      ConcatSnoc(blocks[1..], b);
      assert (blocks + [b])[1..] == blocks[1..] + [b];
    } else {
      assert blocks + [b] == [b];
    }
  }

  /**
   * The blocks a reader hands out when it is asked for `size` bytes at a time,
   * starting at offset `from` of `content`, until it reaches the end.
   */
  function Blocks(content: seq<byte>, from: nat, size: nat): (blocks: seq<seq<byte>>)
    requires size > 0
    decreases |content| - from
  {
    if from >= |content| then []
    else
      var n := Min(size, |content| - from);
      [content[from..from + n]] + Blocks(content, from + n, size)
  }

  /** The blocks, joined in order, are exactly the unread content, whatever the block size. */
  lemma {:induction false} BlocksCoverContent(content: seq<byte>, from: nat, size: nat)
    requires size > 0 && from <= |content|
    ensures Concat(Blocks(content, from, size)) == content[from..]
    decreases |content| - from
  {
    if from < |content| {
      var n := Min(size, |content| - from);
      BlocksCoverContent(content, from + n, size);
      assert content[from..] == content[from..from + n] + content[from + n..];
      assert Blocks(content, from, size)[1..] == Blocks(content, from + n, size);
    }
  }

  /** Every block is non-empty and at most `size` bytes long. */
  lemma {:induction false} BlocksBounded(content: seq<byte>, from: nat, size: nat)
    requires size > 0
    ensures forall b :: b in Blocks(content, from, size) ==> 0 < |b| <= size
    decreases |content| - from
  {
    if from < |content| {
      var n := Min(size, |content| - from);
      BlocksBounded(content, from + n, size);
    }
  }

  /**
   * The number of blocks is the ceiling of the unread length divided by `size`: the loop
   * makes that many updates, then one final empty read ends it.
   */
  lemma {:induction false} BlocksCount(content: seq<byte>, from: nat, size: nat)
    requires size > 0 && from <= |content|
    ensures (|Blocks(content, from, size)| - 1) * size < |content| - from <= |Blocks(content, from, size)| * size
    decreases |content| - from
  {
    if from < |content| {
      var n := Min(size, |content| - from);
      BlocksCount(content, from + n, size);
      var k := |Blocks(content, from + n, size)|;
      assert |Blocks(content, from, size)| == k + 1;
      if n == size {
        assert (k + 1) * size == k * size + size;
        assert (k + 1 - 1) * size == (k - 1) * size + size;
      } else {
        assert from + n == |content|;
      }
    }
  }

  /** One more block read and fed keeps the fed blocks followed by the unread ones equal to all blocks. */
  lemma BlocksStep(done: seq<seq<byte>>, content: seq<byte>, start: nat, size: nat)
    requires size > 0 && start < |content|
    requires done + Blocks(content, start, size) == Blocks(content, 0, size)
    ensures var n := Min(size, |content| - start);
      (done + [content[start..start + n]]) + Blocks(content, start + n, size) == Blocks(content, 0, size)
  {
    var n := Min(size, |content| - start);
    var block, later := content[start..start + n], Blocks(content, start + n, size);
    assert Blocks(content, start, size) == [block] + later;
    assert (done + [block]) + later == done + ([block] + later);
  }

  /** An open binary file (`path.open('rb')`): its bytes and the current read offset. */
  class BinaryFile {
    const content: seq<byte>
    var pos: nat

    ghost predicate Valid()
      reads this
    {
      pos <= |content|
    }

    /** `path.open('rb')`: the file is positioned at its first byte. */
    constructor Open(content: seq<byte>)
      ensures Valid()
      ensures this.content == content && pos == 0
    {
      this.content := content;
      pos := 0;
    }

    /** `f.read(n)`: up to `n` bytes from the current offset; empty at end of file. */
    method Read(n: nat) returns (buf: seq<byte>)
      requires Valid()
      modifies this
      ensures Valid()
      ensures pos == old(pos) + Min(n, |content| - old(pos))
      ensures buf == content[old(pos)..pos]
    {
      buf := content[pos..pos + Min(n, |content| - pos)];
      pos := pos + Min(n, |content| - pos);
    }
  }

  /**
   * A digest object (`hashlib.md5()`). Its observable state is the byte string fed to it
   * so far; `updates` records the blocks in the order `update` received them.
   */
  class Hasher {
    const digest: seq<byte> -> Digest
    var fed: seq<byte>
    ghost var updates: seq<seq<byte>>

    /** The bytes fed are the blocks received, joined in order. */
    ghost predicate Valid()
      reads this
    {
      fed == Concat(updates)
    }

    /** `hashlib.md5()`: a digest object that has been fed nothing. */
    constructor (digest: seq<byte> -> Digest)
      ensures Valid()
      ensures this.digest == digest && fed == [] && updates == []
    {
      this.digest := digest;
      fed := [];
      updates := [];
    }

    /** `hasher.update(buf)`: the digest now covers the old bytes followed by `buf`. */
    method Update(buf: seq<byte>)
      requires Valid()
      modifies this
      ensures Valid()
      ensures fed == old(fed) + buf && updates == old(updates) + [buf]
    {
      ConcatSnoc(updates, buf);
      fed := fed + buf;
      updates := updates + [buf];
    }

    /** `hasher.hexdigest()`: the digest of every block received, joined in order. */
    function HexDigest(): (hex: Digest)
      requires Valid()
      reads this
      ensures hex == digest(Concat(updates))
    {
      digest(fed)
    }
  }

  /**
   * `hash_file(path, bits)`: the result is the digest of the whole content, for every
   * `bits`, and the blocks fed to the digest object are exactly Blocks(content, 0, 2^bits).
   */
  method HashFile(content: seq<byte>, bits: nat, digest: seq<byte> -> Digest)
    returns (hex: Digest, ghost fedBlocks: seq<seq<byte>>)
    ensures hex == digest(content)
    ensures fedBlocks == Blocks(content, 0, Pow2(bits))
    ensures Concat(fedBlocks) == content
  {
    var blockSize := Pow2(bits);
    var f := new BinaryFile.Open(content);
    var hasher := new Hasher(digest);
    var buf := f.Read(blockSize);
    ghost var start := 0;
    while |buf| > 0
      invariant f.Valid() && hasher.Valid()
      invariant f.content == content && hasher.digest == digest
      invariant start <= f.pos <= |content|
      invariant f.pos - start == Min(blockSize, |content| - start)
      invariant buf == content[start..f.pos]
      invariant hasher.updates + Blocks(content, start, blockSize) == Blocks(content, 0, blockSize)
      decreases |content| - start
    {
      BlocksStep(hasher.updates, content, start, blockSize);
      hasher.Update(buf);
      start := f.pos;
      buf := f.Read(blockSize);
    }
    assert start == |content|;
    assert hasher.updates == Blocks(content, 0, blockSize) by {
      assert Blocks(content, start, blockSize) == [];
      assert hasher.updates + [] == hasher.updates;
    }
    BlocksCoverContent(content, 0, blockSize);
    hex := hasher.HexDigest();
    fedBlocks := hasher.updates;
  }
}

=== FILE: pipeline.dfy ===
/**
 * The stages together, on small concrete inputs: scan, report, delete. Contents are
 * single bytes and the digest is any function that tells the two contents apart.
 */
module Pipeline {
  import opened Hashing
  import opened Scanning
  import opened Reporting
  import opened Deletion

  /** Scanning one file inserts its path under its digest. */
  lemma ScanOneFile(d: DigestDict, a: ScannedFile, digest: seq<byte> -> Digest)
    ensures Scan(d, [a], digest) == Insert(d, digest(a.content), a.path)
  {
    assert [a][..0] == [];
  }

  /** Scanning a second file inserts its path into the result of scanning the first. */
  lemma ScanTwoFiles(d: DigestDict, a: ScannedFile, b: ScannedFile, digest: seq<byte> -> Digest)
    ensures Scan(d, [a, b], digest) == Insert(Scan(d, [a], digest), digest(b.content), b.path)
  {
    assert [a, b][..1] == [a];
  }

  /** Scanning a third file inserts its path into the result of scanning the first two. */
  lemma ScanThreeFiles(d: DigestDict, a: ScannedFile, b: ScannedFile, c: ScannedFile, digest: seq<byte> -> Digest)
    ensures Scan(d, [a, b, c], digest) == Insert(Scan(d, [a, b], digest), digest(c.content), c.path)
  {
    assert [a, b, c][..2] == [a, b];
  }

  /** Every path's modification time except `/r/report.txt`'s is later. */
  function ReportMtime(p: Path): (time: real)
  {
    if p == "/r/report.txt" then 1.0 else 2.0
  }

  function TxtSuffix(p: Path): (ext: string)
  {
    ".txt"
  }

  function NoAnswer(p: Path): (reply: string)
  {
    ""
  }

  /** Inserting under the one digest present: the path goes at the end of its list. */
  lemma InsertOnto(keys: seq<Digest>, h: Digest, l: seq<Path>, p: Path)
    ensures Insert(DigestDict(keys, map[h := l]), h, p) == DigestDict(keys, map[h := l + [p]])
  {
    assert map[h := l][h := l + [p]] == map[h := l + [p]];
  }

  /** A new digest: a new key with a one-path list. */
  lemma InsertAbsent(d: DigestDict, h: Digest, p: Path)
    requires h !in d.lists
    ensures Insert(d, h, p) == DigestDict(d.keys + [h], d.lists[h := [p]])
  {
  }

  /** Of a list of several paths and a list of one, only the first is a group. */
  lemma TwoKeyGroups(hx: Digest, l: seq<Path>, hy: Digest, p: Path)
    requires hx != hy && |l| > 1
    ensures DuplicateGroups(DigestDict([hx, hy], map[hx := l, hy := [p]])) == [l]
  {
    var lists := map[hx := l, hy := [p]];
    assert [hx, hy][1..] == [hy] && [hy][1..] == [];
    assert GroupsOf([hy], lists) == [];
  }

  /** Keeping old files with "delete all", the newer copy is the one deleted. */
  lemma ReportDeletions()
    ensures AllDeletions([["/r/report.txt", "/r/backup/report.txt"]], ReportMtime, TxtSuffix, false, true, NoAnswer)
      == ["/r/backup/report.txt"]
  {
    var groups := [["/r/report.txt", "/r/backup/report.txt"]];
    assert groups[..0] == [];
    var g := groups[0];
    assert g[1..] == ["/r/backup/report.txt"];
    assert SortByMtime(["/r/backup/report.txt"], ReportMtime, false) == ["/r/backup/report.txt"];
    var sorted := SortByMtime(g, ReportMtime, false);
    assert sorted == g;
    SameSuffixIff(sorted, TxtSuffix);
    ChosenAll(sorted[1..], NoAnswer);
  }

  /**
   * `report.txt` and `backup/report.txt` hold the same bytes and `notes.txt` others. The
   * scan reports one group of two; keeping old files with "delete all", the newer copy
   * (`backup/report.txt`) is the one deleted.
   */
  lemma EndToEndKeepsOldest(digest: seq<byte> -> Digest)
    requires digest([88]) != digest([89])
    ensures var files := [ScannedFile("/r/report.txt", [88]), ScannedFile("/r/backup/report.txt", [88]),
                          ScannedFile("/r/notes.txt", [89])];
      var groups := DuplicateGroups(Scan(Empty, files, digest));
      groups == [["/r/report.txt", "/r/backup/report.txt"]] &&
      AllDeletions(groups, ReportMtime, TxtSuffix, false, true, NoAnswer) == ["/r/backup/report.txt"]
  {
    var files := [ScannedFile("/r/report.txt", [88]), ScannedFile("/r/backup/report.txt", [88]),
                  ScannedFile("/r/notes.txt", [89])];
    var hx, hy := digest([88]), digest([89]);
    var copies := ["/r/report.txt", "/r/backup/report.txt"];
    var d := DigestDict([hx, hy], map[hx := copies, hy := ["/r/notes.txt"]]);
    assert Scan(Empty, files, digest) == d by {
      ScanThree("/r/report.txt", "/r/backup/report.txt", "/r/notes.txt", [88], [89], digest);
    }
    assert DuplicateGroups(d) == [copies] by {
      TwoKeyGroups(hx, copies, hy, "/r/notes.txt");
    }
    ReportDeletions();
  }

  function CopyMtime(p: Path): (time: real)
  {
    if p == "/d/a.txt" then 1.0 else 2.0
  }

  /** One file: one key listing its path. */
  lemma ScanOne(pa: Path, content: seq<byte>, digest: seq<byte> -> Digest)
    ensures Scan(Empty, [ScannedFile(pa, content)], digest) == DigestDict([digest(content)], map[digest(content) := [pa]])
  {
    var h := digest(content);
    ScanOneFile(Empty, ScannedFile(pa, content), digest);
    InsertAbsent(Empty, h, pa);
    assert map[][h := [pa]] == map[h := [pa]];
  }

  /** Two files with the same content, scanned once. */
  lemma ScanTwo(pa: Path, pb: Path, content: seq<byte>, digest: seq<byte> -> Digest)
    ensures Scan(Empty, [ScannedFile(pa, content), ScannedFile(pb, content)], digest) ==
      DigestDict([digest(content)], map[digest(content) := [pa, pb]])
  {
    var a, b := ScannedFile(pa, content), ScannedFile(pb, content);
    var h := digest(content);
    ScanOne(pa, content, digest);
    ScanTwoFiles(Empty, a, b, digest);
    InsertOnto([h], h, [pa], pb);
    assert [pa] + [pb] == [pa, pb];
  }

  /** Inserting under a second digest adds it after the first. */
  lemma InsertSecondKey(hx: Digest, l: seq<Path>, hy: Digest, p: Path)
    requires hx != hy
    ensures Insert(DigestDict([hx], map[hx := l]), hy, p) == DigestDict([hx, hy], map[hx := l, hy := [p]])
  {
    InsertAbsent(DigestDict([hx], map[hx := l]), hy, p);
    assert [hx] + [hy] == [hx, hy];
  }

  /** Two files with the same content and a third with other content: one key per content, in scan order. */
  lemma ScanThree(pa: Path, pb: Path, pc: Path, same: seq<byte>, other: seq<byte>, digest: seq<byte> -> Digest)
    requires digest(same) != digest(other)
    ensures Scan(Empty, [ScannedFile(pa, same), ScannedFile(pb, same), ScannedFile(pc, other)], digest) ==
      DigestDict([digest(same), digest(other)], map[digest(same) := [pa, pb], digest(other) := [pc]])
  {
    var a, b, c := ScannedFile(pa, same), ScannedFile(pb, same), ScannedFile(pc, other);
    var hx, hy := digest(same), digest(other);
    var d2 := DigestDict([hx], map[hx := [pa, pb]]);
    assert Scan(Empty, [a, b, c], digest) == Insert(d2, hy, pc) by {
      ScanTwo(pa, pb, same, digest);
      ScanThreeFiles(Empty, a, b, c, digest);
    }
    InsertSecondKey(hx, [pa, pb], hy, pc);
  }

  /** The first file scanned again into the saved results of both. */
  lemma RescanOne(pa: Path, pb: Path, content: seq<byte>, digest: seq<byte> -> Digest)
    ensures var h := digest(content);
      Scan(DigestDict([h], map[h := [pa, pb]]), [ScannedFile(pa, content)], digest) == DigestDict([h], map[h := [pa, pb, pa]])
  {
    var h := digest(content);
    var saved := DigestDict([h], map[h := [pa, pb]]);
    ScanOneFile(saved, ScannedFile(pa, content), digest);
    InsertOnto([h], h, [pa, pb], pa);
    assert [pa, pb] + [pa] == [pa, pb, pa];
  }

  /** The same two files scanned again into the saved results: each path is listed twice. */
  lemma RescanTwo(pa: Path, pb: Path, content: seq<byte>, digest: seq<byte> -> Digest)
    ensures var files := [ScannedFile(pa, content), ScannedFile(pb, content)];
      Scan(Scan(Empty, files, digest), files, digest) == DigestDict([digest(content)], map[digest(content) := [pa, pb, pa, pb]])
  {
    var a, b := ScannedFile(pa, content), ScannedFile(pb, content);
    var h := digest(content);
    var saved := DigestDict([h], map[h := [pa, pb]]);
    var d3 := DigestDict([h], map[h := [pa, pb, pa]]);
    assert Scan(Scan(Empty, [a, b], digest), [a, b], digest) == Insert(d3, h, pb) by {
      ScanTwo(pa, pb, content, digest);
      RescanOne(pa, pb, content, digest);
      ScanTwoFiles(saved, a, b, digest);
    }
    InsertOnto([h], h, [pa, pb, pa], pb);
    assert [pa, pb, pa] + [pb] == [pa, pb, pa, pb];
  }

  /** A dictionary with a single list of several paths reports that list alone. */
  lemma SingleKeyGroups(h: Digest, l: seq<Path>)
    requires |l| > 1
    ensures DuplicateGroups(DigestDict([h], map[h := l])) == [l]
  {
    assert [h][1..] == [];
    assert GroupsOf([h], map[h := l]) == [l] + GroupsOf([], map[h := l]);
  }

  /** Sorting `a, b, a, b` oldest first, when `a` is older than `b`. */
  lemma SortDoubled(a: Path, b: Path, mtime: Path -> real)
    requires mtime(a) < mtime(b)
    ensures SortByMtime([a, b, a, b], mtime, false) == [a, a, b, b]
  {
    assert [a, b, a, b][1..] == [b, a, b] && [b, a, b][1..] == [a, b] && [a, b][1..] == [b] && [b][1..] == [];
    assert InsertByMtime(b, [], mtime, false) == [b];
    assert SortByMtime([b], mtime, false) == [b];
    assert InsertByMtime(a, [b], mtime, false) == [a, b];
    assert SortByMtime([a, b], mtime, false) == [a, b];
    assert InsertByMtime(b, [b], mtime, false) == [b, b];
    assert [a, b][1..] == [b];
    assert InsertByMtime(b, [a, b], mtime, false) == [a, b, b];
    assert SortByMtime([b, a, b], mtime, false) == [a, b, b];
    assert InsertByMtime(a, [a, b, b], mtime, false) == [a, a, b, b];
  }

  /** The deletions of a single group are that group's. */
  lemma AllDeletionsOne(g: seq<Path>, mtime: Path -> real, suffix: Path -> string,
                        keepNew: bool, deleteAll: bool, answer: Path -> string)
    ensures AllDeletions([g], mtime, suffix, keepNew, deleteAll, answer) == GroupDeletions(g, mtime, suffix, keepNew, deleteAll, answer)
  {
    assert [g][..0] == [];
  }

  /** A group listing the older path `a` and the newer `b` twice each, deleted keeping old files. */
  lemma DoubledGroupDeletions(a: Path, b: Path, mtime: Path -> real, suffix: Path -> string, answer: Path -> string)
    requires mtime(a) < mtime(b) && suffix(a) == suffix(b)
    ensures GroupDeletions([a, b, a, b], mtime, suffix, false, true, answer) == [a, b, b]
  {
    var sorted := [a, a, b, b];
    assert SortByMtime([a, b, a, b], mtime, false) == sorted by {
      SortDoubled(a, b, mtime);
    }
    assert SameSuffix(sorted, suffix) by {
      assert Suffixes(sorted, suffix) == {suffix(a)};
    }
    assert Chosen(Candidates(sorted), true, answer) == [a, b, b] by {
      assert Candidates(sorted) == [a, b, b];
      ChosenAll([a, b, b], answer);
    }
  }

  /**
   * Resuming from saved results and scanning the same directory again lists every path
   * twice (duplicate_checker.py:23 appends unconditionally). With `a.txt` strictly older
   * than `b.txt`, old files kept and "delete all", the deletion stage (as corrected at
   * lines 44 and 46) hands `a.txt`, `b.txt`, `b.txt` to `_delete`: both files are removed,
   * so no copy of the content is left, and the second removal of `b.txt` would make
   * `os.remove` raise FileNotFoundError (line 60).
   */
  lemma RescanDeletesKeptCopy(digest: seq<byte> -> Digest)
    ensures var files := [ScannedFile("/d/a.txt", [7]), ScannedFile("/d/b.txt", [7])];
      var groups := DuplicateGroups(Scan(Scan(Empty, files, digest), files, digest));
      groups == [["/d/a.txt", "/d/b.txt", "/d/a.txt", "/d/b.txt"]] &&
      AllDeletions(groups, CopyMtime, TxtSuffix, false, true, NoAnswer) == ["/d/a.txt", "/d/b.txt", "/d/b.txt"]
  {
    var files := [ScannedFile("/d/a.txt", [7]), ScannedFile("/d/b.txt", [7])];
    var h := digest([7]);
    var listed := ["/d/a.txt", "/d/b.txt", "/d/a.txt", "/d/b.txt"];
    assert Scan(Scan(Empty, files, digest), files, digest) == DigestDict([h], map[h := listed]) by {
      RescanTwo("/d/a.txt", "/d/b.txt", [7], digest);
    }
    assert DuplicateGroups(DigestDict([h], map[h := listed])) == [listed] by {
      SingleKeyGroups(h, listed);
    }
    assert AllDeletions([listed], CopyMtime, TxtSuffix, false, true, NoAnswer) == ["/d/a.txt", "/d/b.txt", "/d/b.txt"] by {
      DoubledGroupDeletions("/d/a.txt", "/d/b.txt", CopyMtime, TxtSuffix, NoAnswer);
      AllDeletionsOne(listed, CopyMtime, TxtSuffix, false, true, NoAnswer);
    }
  }

  /**
   * With the fold that does not list a path twice, merged into repeat-free results, no
   * reported group deletes its own first file after sorting, whatever the answers. This
   * is a statement about each group on its own: a path listed under two digests can
   * still be deleted through the other group (see ConsistentScanKeepsACopy).
   */
  lemma DistinctScanKeepsACopy(d: DigestDict, files: seq<ScannedFile>, digest: seq<byte> -> Digest,
                               mtime: Path -> real, suffix: Path -> string,
                               keepNew: bool, deleteAll: bool, answer: Path -> string)
    requires WellFormed(d)
    requires forall h :: h in d.lists ==> NoRepeats(d.lists[h])
    ensures WellFormed(ScanDistinct(d, files, digest))
    ensures forall g :: g in DuplicateGroups(ScanDistinct(d, files, digest)) ==>
      g != [] && SortByMtime(g, mtime, keepNew)[0] !in GroupDeletions(g, mtime, suffix, keepNew, deleteAll, answer)
  {
    ScanDistinctNoRepeats(d, files, digest);
    var r := ScanDistinct(d, files, digest);
    forall g | g in DuplicateGroups(r)
      ensures g != [] && SortByMtime(g, mtime, keepNew)[0] !in GroupDeletions(g, mtime, suffix, keepNew, deleteAll, answer)
    {
      var h :| h in r.lists && r.lists[h] == g;
      KeptCopySurvives(g, mtime, suffix, keepNew, deleteAll, answer);
    }
  }

  /**
   * With the corrected fold, and saved results that agree with the files scanned now
   * (no path under two digests, and none listed under a digest other than its current
   * one), the whole deletion stage never deletes the file any group keeps: every
   * reported content keeps a copy, whatever the answers.
   */
  lemma ConsistentScanKeepsACopy(d: DigestDict, files: seq<ScannedFile>, digest: seq<byte> -> Digest,
                                 mtime: Path -> real, suffix: Path -> string,
                                 keepNew: bool, deleteAll: bool, answer: Path -> string)
    requires WellFormed(d)
    requires forall h :: h in d.lists ==> NoRepeats(d.lists[h])
    requires OneDigestPerPath(d) && AgreesWith(d, files, digest)
    ensures var groups := DuplicateGroups(ScanDistinct(d, files, digest));
      forall i :: 0 <= i < |groups| ==>
        groups[i] != [] &&
        SortByMtime(groups[i], mtime, keepNew)[0] !in AllDeletions(groups, mtime, suffix, keepNew, deleteAll, answer)
  {
    var r := ScanDistinct(d, files, digest);
    ScanDistinctNoRepeats(d, files, digest);
    ScanDistinctOneDigest(d, files, digest);
    var groups := DuplicateGroups(r);
    assert Disjoint(groups) by {
      forall k1, k2, p | k1 in r.keys && k2 in r.keys && p in r.lists[k1] && p in r.lists[k2]
        ensures k1 == k2
      {
        assert Lookup(r, k1) == r.lists[k1] && Lookup(r, k2) == r.lists[k2];
      }
      GroupsOfDisjoint(r.keys, r.lists);
    }
    forall i | 0 <= i < |groups|
      ensures groups[i] != [] && NoRepeats(groups[i])
    {
      assert groups[i] in groups;
    }
    KeptNeverDeleted(groups, mtime, suffix, keepNew, deleteAll, answer);
  }
}

=== FILE: reporting.dfy ===
/**
 * The duplicate filter, `print_results`: the lists of the digest dictionary that hold
 * more than one path, in the dictionary's key order. The printing is not modelled.
 */
module Reporting {
  import opened Hashing
  import opened Scanning

  /** The lists with more than one path, taken over `keys` in order. */
  function GroupsOf(keys: seq<Digest>, lists: map<Digest, seq<Path>>): (groups: seq<seq<Path>>)
    requires forall k :: k in keys ==> k in lists
    ensures |groups| <= |keys|
  {
    if keys == [] then []
    else (if |lists[keys[0]]| > 1 then [lists[keys[0]]] else []) + GroupsOf(keys[1..], lists)
  }

  /**
   * Every group holds more than one path and is the list of some key, and the list of
   * every key with more than one path is a group.
   */
  lemma {:induction false} GroupsOfSound(keys: seq<Digest>, lists: map<Digest, seq<Path>>)
    requires forall k :: k in keys ==> k in lists
    ensures forall g :: g in GroupsOf(keys, lists) ==> |g| > 1 && exists k :: k in keys && lists[k] == g
    ensures forall k :: k in keys && |lists[k]| > 1 ==> lists[k] in GroupsOf(keys, lists)
  {
    if keys != [] {
      GroupsOfSound(keys[1..], lists);
      var head := if |lists[keys[0]]| > 1 then [lists[keys[0]]] else [];
      var rest := GroupsOf(keys[1..], lists);
      assert GroupsOf(keys, lists) == head + rest;
      forall g | g in GroupsOf(keys, lists)
        ensures |g| > 1 && exists k :: k in keys && lists[k] == g
      {
        if g in rest {
          var k :| k in keys[1..] && lists[k] == g;
          assert k in keys;
        } else {
          assert g == lists[keys[0]];
        }
      }
      forall k | k in keys && |lists[k]| > 1
        ensures lists[k] in GroupsOf(keys, lists)
      {
        if k != keys[0] {
          assert k in keys[1..];
        }
      }
    }
  }

  /**
   * `print_results(duplicate_dict)`: exactly the lists with more than one path. The
   * dictionary is a value here, so it is left unchanged.
   */
  function DuplicateGroups(d: DigestDict): (groups: seq<seq<Path>>)
    requires WellFormed(d)
    ensures forall g :: g in groups ==> |g| > 1
    ensures forall g :: g in groups ==> exists h :: h in d.lists && d.lists[h] == g
    ensures forall h :: h in d.lists && |d.lists[h]| > 1 ==> d.lists[h] in groups
    ensures groups == [] <==> forall h :: h in d.lists ==> |d.lists[h]| <= 1
    ensures groups == GroupsOf(d.keys, d.lists)
  {
    GroupsOfSound(d.keys, d.lists);
    var groups := GroupsOf(d.keys, d.lists);
    assert groups != [] ==> groups[0] in groups;
    groups
  }

  /**
   * The groups follow the key order: the groups of a concatenation of key sequences are
   * the groups of the first followed by the groups of the second.
   */
  lemma {:induction false} GroupsOfAppend(a: seq<Digest>, b: seq<Digest>, lists: map<Digest, seq<Path>>)
    requires forall k :: k in a + b ==> k in lists
    ensures GroupsOf(a + b, lists) == GroupsOf(a, lists) + GroupsOf(b, lists)
  {
    if a == [] {
      assert a + b == b;
    } else {
      assert (a + b)[0] == a[0];
      assert (a + b)[1..] == a[1..] + b;
      GroupsOfAppend(a[1..], b, lists);
    }
  }

  /** The groups appear in key order: each multi-path key gives one group at its place. */
  lemma {:induction false} GroupsOfKeyOrder(keys: seq<Digest>, lists: map<Digest, seq<Path>>, i: nat)
    requires forall k :: k in keys ==> k in lists
    requires i < |keys|
    ensures GroupsOf(keys, lists) ==
      GroupsOf(keys[..i], lists) + (if |lists[keys[i]]| > 1 then [lists[keys[i]]] else []) + GroupsOf(keys[i + 1..], lists)
  {
    assert keys == keys[..i] + keys[i..];
    GroupsOfAppend(keys[..i], keys[i..], lists);
    var rest := keys[i..];
    assert rest[0] == keys[i] && rest[1..] == keys[i + 1..];
    assert GroupsOf(rest, lists) == (if |lists[keys[i]]| > 1 then [lists[keys[i]]] else []) + GroupsOf(keys[i + 1..], lists);
  }

  /** No path belongs to two of the groups. */
  ghost predicate Disjoint(groups: seq<seq<Path>>)
  {
    forall i, j, p :: 0 <= i < j < |groups| && p in groups[i] ==> p !in groups[j]
  }

  /** A group that shares no path with any of the disjoint groups after it keeps them disjoint. */
  lemma DisjointCons(head: seq<Path>, rest: seq<seq<Path>>)
    requires Disjoint(rest)
    requires forall g, p :: g in rest && p in g ==> p !in head
    ensures Disjoint([head] + rest)
  {
    var groups := [head] + rest;
    forall i, j, p | 0 <= i < j < |groups| && p in groups[i]
      ensures p !in groups[j]
    {
      assert groups[j] == rest[j - 1];
      if i > 0 {
        assert groups[i] == rest[i - 1];
      }
    }
  }

  /**
   * When the keys are distinct and no path is listed under two of them, the groups share
   * no path.
   */
  lemma {:induction false} GroupsOfDisjoint(keys: seq<Digest>, lists: map<Digest, seq<Path>>)
    requires forall k :: k in keys ==> k in lists
    requires forall i, j :: 0 <= i < j < |keys| ==> keys[i] != keys[j]
    requires forall k1, k2, p :: k1 in keys && k2 in keys && p in lists[k1] && p in lists[k2] ==> k1 == k2
    ensures Disjoint(GroupsOf(keys, lists))
  {
    if keys != [] {
      var k0, later := keys[0], keys[1..];
      assert forall i, j :: 0 <= i < j < |later| ==> later[i] != later[j] by {
        assert forall i :: 0 <= i < |later| ==> later[i] == keys[i + 1];
      }
      GroupsOfDisjoint(later, lists);
      var rest := GroupsOf(later, lists);
      if |lists[k0]| > 1 {
        assert forall g, p :: g in rest && p in g ==> p !in lists[k0] by {
          GroupsOfSound(later, lists);
          forall g, p | g in rest && p in g
            ensures p !in lists[k0]
          {
            var k :| k in later && lists[k] == g;
            assert k != k0 by {
              var j :| 0 <= j < |later| && later[j] == k;
              assert later[j] == keys[j + 1];
            }
          }
        }
        DisjointCons(lists[k0], rest);
        assert GroupsOf(keys, lists) == [lists[k0]] + rest;
      } else {
        assert GroupsOf(keys, lists) == rest;
      }
    }
  }
}

=== FILE: scanning.dfy ===
/**
 * The scan fold, `find_duplicates`: every scanned file is hashed and its path string is
 * appended to the list kept under its digest in a dictionary, which the caller supplies
 * (empty, or loaded from saved results) and which is updated in place.
 *
 * A Python dictionary remembers the order in which its keys were first inserted, and
 * `print_results` lists groups in that order, so the dictionary's value here is the key
 * sequence in insertion order together with the list under each key.
 */
module Scanning {
  import opened Hashing

  /** A file path, as the string `str(filename)`. */
  type Path = string

  /** One regular file found by the directory walk: its path and its bytes. */
  datatype ScannedFile = ScannedFile(path: Path, content: seq<byte>)

  /** The value of a digest dictionary: keys in insertion order, and the list under each. */
  datatype DigestDict = DigestDict(keys: seq<Digest>, lists: map<Digest, seq<Path>>)

  /** The empty dictionary `{}`. */
  const Empty := DigestDict([], map[])

  /** Keys are listed once each, and the listed keys are exactly the keys of the map. */
  predicate WellFormed(d: DigestDict)
  {
    (forall i, j :: 0 <= i < j < |d.keys| ==> d.keys[i] != d.keys[j]) &&
    (forall h :: h in d.keys ==> h in d.lists) &&
    (forall h :: h in d.lists ==> h in d.keys)
  }

  /** The list under `h`, or the empty list when `h` is not a key. */
  function Lookup(d: DigestDict, h: Digest): (paths: seq<Path>)
  {
    if h in d.lists then d.lists[h] else []
  }

  /**
   * One step of the fold (duplicate_checker.py:22-25): the path is appended to the list of
   * a digest already present, and a new digest is added at the end with a one-element list.
   */
  function Insert(d: DigestDict, h: Digest, p: Path): (r: DigestDict)
    ensures forall k :: Lookup(r, k) == if k == h then Lookup(d, h) + [p] else Lookup(d, k)
    ensures r.lists.Keys == d.lists.Keys + {h}
    ensures r.keys == if h in d.lists then d.keys else d.keys + [h]
    ensures WellFormed(d) ==> WellFormed(r)
  {
    if h in d.lists then DigestDict(d.keys, d.lists[h := d.lists[h] + [p]])
    else DigestDict(d.keys + [h], d.lists[h := [p]])
  }

  /** The dictionary after folding `files`, in order, into `d`. */
  function Scan(d: DigestDict, files: seq<ScannedFile>, digest: seq<byte> -> Digest): (r: DigestDict)
    ensures WellFormed(d) ==> WellFormed(r)
  {
    if files == [] then d
    else
      var last := files[|files| - 1];
      Insert(Scan(d, files[..|files| - 1], digest), digest(last.content), last.path)
  }

  /** The paths of the files whose content has digest `h`, in scan order. */
  function PathsWithDigest(files: seq<ScannedFile>, digest: seq<byte> -> Digest, h: Digest): (paths: seq<Path>)
  {
    if files == [] then []
    else
      var last := files[|files| - 1];
      PathsWithDigest(files[..|files| - 1], digest, h) + (if digest(last.content) == h then [last.path] else [])
  }

  /** The digests of all scanned files. */
  function Digests(files: seq<ScannedFile>, digest: seq<byte> -> Digest): (hs: set<Digest>)
  {
    if files == [] then {} else Digests(files[..|files| - 1], digest) + {digest(files[|files| - 1].content)}
  }

  /** Total number of listed paths, summed over `keys`. */
  function PathCount(keys: seq<Digest>, lists: map<Digest, seq<Path>>): (count: nat)
  {
    if keys == [] then 0
    else
      var k := keys[|keys| - 1];
      PathCount(keys[..|keys| - 1], lists) + (if k in lists then |lists[k]| else 0)
  }

  function TotalPaths(d: DigestDict): (count: nat)
  {
    PathCount(d.keys, d.lists)
  }

  /**
   * The list under every digest after a scan is the list before it, followed by the paths
   * of the scanned files with that digest, in scan order: nothing is removed, reordered or
   * deduplicated.
   */
  lemma {:induction false} ScanLists(d: DigestDict, files: seq<ScannedFile>, digest: seq<byte> -> Digest)
    ensures forall h :: Lookup(Scan(d, files, digest), h) == Lookup(d, h) + PathsWithDigest(files, digest, h)
  {
    if files != [] {
      ScanLists(d, files[..|files| - 1], digest);
    }
  }

  /**
   * The keys after a scan are the old keys followed by the new digests.
   */
  lemma {:induction false} ScanKeys(d: DigestDict, files: seq<ScannedFile>, digest: seq<byte> -> Digest)
    ensures Scan(d, files, digest).lists.Keys == d.lists.Keys + Digests(files, digest)
    ensures |d.keys| <= |Scan(d, files, digest).keys|
    ensures Scan(d, files, digest).keys[..|d.keys|] == d.keys
  {
    if files != [] {
      ScanKeys(d, files[..|files| - 1], digest);
    }
  }

  /** A scanned file's path is listed among the paths with its digest. */
  lemma {:induction false} PathsWithDigestHas(files: seq<ScannedFile>, digest: seq<byte> -> Digest, i: nat)
    requires i < |files|
    ensures files[i].path in PathsWithDigest(files, digest, digest(files[i].content))
  {
    if i < |files| - 1 {
      PathsWithDigestHas(files[..|files| - 1], digest, i);
    }
  }

  /** After a scan, every scanned path is listed under its file's digest. */
  lemma {:induction false} ScanRecordsEveryFile(d: DigestDict, files: seq<ScannedFile>, digest: seq<byte> -> Digest)
    ensures forall i :: 0 <= i < |files| ==>
      digest(files[i].content) in Scan(d, files, digest).lists &&
      files[i].path in Scan(d, files, digest).lists[digest(files[i].content)]
  {
    ScanLists(d, files, digest);
    ScanKeys(d, files, digest);
    forall i | 0 <= i < |files|
      ensures files[i].path in Lookup(Scan(d, files, digest), digest(files[i].content))
    {
      PathsWithDigestHas(files, digest, i);
    }
  }

  /** No path is listed under a digest no scanned file has. */
  lemma {:induction false} PathsWithOtherDigest(files: seq<ScannedFile>, digest: seq<byte> -> Digest, h: Digest)
    requires h !in Digests(files, digest)
    ensures PathsWithDigest(files, digest, h) == []
  {
    if files != [] {
      PathsWithOtherDigest(files[..|files| - 1], digest, h);
    }
  }

  /**
   * A scan merged into saved results keeps them: old keys keep their place in the key
   * order, every old list is a prefix of the new one, and lists under digests that no
   * scanned file has are unchanged.
   */
  lemma {:induction false} ScanExtendsPrior(d: DigestDict, files: seq<ScannedFile>, digest: seq<byte> -> Digest)
    ensures |d.keys| <= |Scan(d, files, digest).keys| && Scan(d, files, digest).keys[..|d.keys|] == d.keys
    ensures forall h :: h in d.lists ==>
      h in Scan(d, files, digest).lists &&
      |d.lists[h]| <= |Scan(d, files, digest).lists[h]| &&
      Scan(d, files, digest).lists[h][..|d.lists[h]|] == d.lists[h]
    ensures forall h :: h in d.lists && h !in Digests(files, digest) ==>
      Scan(d, files, digest).lists[h] == d.lists[h]
  {
    ScanLists(d, files, digest);
    ScanKeys(d, files, digest);
    var r := Scan(d, files, digest);
    forall h | h in d.lists
      ensures h in r.lists && |d.lists[h]| <= |r.lists[h]| && r.lists[h][..|d.lists[h]|] == d.lists[h]
    {
      assert Lookup(r, h) == d.lists[h] + PathsWithDigest(files, digest, h);
    }
    forall h | h in d.lists && h !in Digests(files, digest)
      ensures r.lists[h] == d.lists[h]
    {
      PathsWithOtherDigest(files, digest, h);
      assert Lookup(r, h) == d.lists[h] + [];
    }
  }

  /** A scan never leaves a key with an empty list, if there was none before. */
  lemma {:induction false} ScanKeepsNonEmpty(d: DigestDict, files: seq<ScannedFile>, digest: seq<byte> -> Digest)
    requires forall h :: h in d.lists ==> d.lists[h] != []
    ensures forall h :: h in Scan(d, files, digest).lists ==> Scan(d, files, digest).lists[h] != []
  {
    ScanLists(d, files, digest);
    ScanKeys(d, files, digest);
    var r := Scan(d, files, digest);
    forall h | h in r.lists
      ensures r.lists[h] != []
    {
      assert Lookup(r, h) == Lookup(d, h) + PathsWithDigest(files, digest, h);
      if h !in d.lists {
        assert h in Digests(files, digest);
        DigestHasPath(files, digest, h);
      }
    }
  }

  /** Some scanned file has each digest of Digests. */
  lemma {:induction false} DigestHasPath(files: seq<ScannedFile>, digest: seq<byte> -> Digest, h: Digest)
    requires h in Digests(files, digest)
    ensures PathsWithDigest(files, digest, h) != []
  {
    var last := files[|files| - 1];
    if digest(last.content) != h {
      DigestHasPath(files[..|files| - 1], digest, h);
    }
  }

  /** Summing over keys that do not include `h` ignores the list under `h`. */
  lemma {:induction false} PathCountIgnores(keys: seq<Digest>, lists: map<Digest, seq<Path>>, h: Digest, l: seq<Path>)
    requires h !in keys
    ensures PathCount(keys, lists[h := l]) == PathCount(keys, lists)
  {
    if keys != [] {
      PathCountIgnores(keys[..|keys| - 1], lists, h, l);
    }
  }

  /** Appending one path under a key listed exactly once adds one to the total. */
  lemma {:induction false} PathCountAppend(keys: seq<Digest>, lists: map<Digest, seq<Path>>, h: Digest, p: Path)
    requires h in lists && h in keys
    requires forall i, j :: 0 <= i < j < |keys| ==> keys[i] != keys[j]
    ensures PathCount(keys, lists[h := lists[h] + [p]]) == PathCount(keys, lists) + 1
  {
    var init, k := keys[..|keys| - 1], keys[|keys| - 1];
    if k == h {
      assert forall i :: 0 <= i < |init| ==> init[i] != keys[|keys| - 1];
      PathCountIgnores(init, lists, h, lists[h] + [p]);
    } else {
      assert h in init by {
        var i :| 0 <= i < |keys| && keys[i] == h;
        assert i < |keys| - 1;
        assert init[i] == h;
      }
      PathCountAppend(init, lists, h, p);
    }
  }

  /** One fold step lists exactly one more path. */
  lemma InsertCountsPath(d: DigestDict, h: Digest, p: Path)
    requires WellFormed(d)
    ensures TotalPaths(Insert(d, h, p)) == TotalPaths(d) + 1
  {
    if h in d.lists {
      PathCountAppend(d.keys, d.lists, h, p);
    } else {
      var keys := d.keys + [h];
      assert keys[..|keys| - 1] == d.keys;
      PathCountIgnores(d.keys, d.lists, h, [p]);
    }
  }

  /** A scan lists exactly one more path per scanned file. */
  lemma {:induction false} ScanCountsPaths(d: DigestDict, files: seq<ScannedFile>, digest: seq<byte> -> Digest)
    requires WellFormed(d)
    ensures TotalPaths(Scan(d, files, digest)) == TotalPaths(d) + |files|
  {
    if files != [] {
      var init := files[..|files| - 1];
      ScanCountsPaths(d, init, digest);
      ScanKeys(d, init, digest);
      InsertCountsPath(Scan(d, init, digest), digest(files[|files| - 1].content), files[|files| - 1].path);
    }
  }

  /** No path occurs twice in `s`. */
  predicate NoRepeats(s: seq<Path>)
  {
    forall i, j :: 0 <= i < j < |s| ==> s[i] != s[j]
  }

  /**
   * A fold step that keeps each list free of repeats: a path already listed under `h` is
   * not listed again. The source appends unconditionally (see Insert).
   */
  function InsertDistinct(d: DigestDict, h: Digest, p: Path): (r: DigestDict)
    ensures p in Lookup(r, h)
    ensures forall k :: k != h ==> Lookup(r, k) == Lookup(d, k)
    ensures NoRepeats(Lookup(d, h)) ==> NoRepeats(Lookup(r, h))
    ensures r.lists.Keys == d.lists.Keys + {h}
    ensures WellFormed(d) ==> WellFormed(r)
  {
    if h in d.lists && p in d.lists[h] then d else Insert(d, h, p)
  }

  /** Scan, folding with InsertDistinct. */
  function ScanDistinct(d: DigestDict, files: seq<ScannedFile>, digest: seq<byte> -> Digest): (r: DigestDict)
    ensures WellFormed(d) ==> WellFormed(r)
  {
    if files == [] then d
    else
      var last := files[|files| - 1];
      InsertDistinct(ScanDistinct(d, files[..|files| - 1], digest), digest(last.content), last.path)
  }

  /** Folding with InsertDistinct never lists a path twice under one digest. */
  lemma {:induction false} ScanDistinctNoRepeats(d: DigestDict, files: seq<ScannedFile>, digest: seq<byte> -> Digest)
    requires forall h :: h in d.lists ==> NoRepeats(d.lists[h])
    ensures forall h :: h in ScanDistinct(d, files, digest).lists ==> NoRepeats(ScanDistinct(d, files, digest).lists[h])
  {
    if files != [] {
      var init, last := files[..|files| - 1], files[|files| - 1];
      ScanDistinctNoRepeats(d, init, digest);
      var prior, h0 := ScanDistinct(d, init, digest), digest(last.content);
      var r := ScanDistinct(d, files, digest);
      assert r == InsertDistinct(prior, h0, last.path);
      forall h | h in r.lists
        ensures NoRepeats(r.lists[h])
      {
        assert Lookup(r, h) == r.lists[h];
        if h != h0 {
          assert h in prior.lists && Lookup(prior, h) == prior.lists[h];
        } else if h !in prior.lists {
          assert Lookup(prior, h) == [];
        }
      }
    }
  }

  /** Folding with InsertDistinct lists the same paths under each digest as the source's fold. */
  lemma {:induction false} ScanDistinctSameMembers(d: DigestDict, files: seq<ScannedFile>, digest: seq<byte> -> Digest)
    ensures forall h, p :: p in Lookup(ScanDistinct(d, files, digest), h) <==> p in Lookup(Scan(d, files, digest), h)
    ensures ScanDistinct(d, files, digest).lists.Keys == Scan(d, files, digest).lists.Keys
  {
    if files != [] {
      var init, last := files[..|files| - 1], files[|files| - 1];
      ScanDistinctSameMembers(d, init, digest);
      assert ScanDistinct(d, files, digest) == InsertDistinct(ScanDistinct(d, init, digest), digest(last.content), last.path);
      assert Scan(d, files, digest) == Insert(Scan(d, init, digest), digest(last.content), last.path);
    }
  }

  /** A path listed under `h` by the scan of `files` belongs to a scanned file with digest `h`. */
  lemma {:induction false} PathsWithDigestFrom(files: seq<ScannedFile>, digest: seq<byte> -> Digest, h: Digest, p: Path)
    requires p in PathsWithDigest(files, digest, h)
    ensures exists i :: 0 <= i < |files| && files[i].path == p && digest(files[i].content) == h
  {
    var init, last := files[..|files| - 1], files[|files| - 1];
    if p in PathsWithDigest(init, digest, h) {
      PathsWithDigestFrom(init, digest, h, p);
      var i :| 0 <= i < |init| && init[i].path == p && digest(init[i].content) == h;
      assert files[i] == init[i];
    } else {
      assert last.path == p && digest(last.content) == h;
    }
  }

  /** No path is listed under two different digests. */
  ghost predicate OneDigestPerPath(d: DigestDict)
  {
    forall h1, h2, p :: p in Lookup(d, h1) && p in Lookup(d, h2) ==> h1 == h2
  }

  /**
   * The saved results agree with the files scanned now: a scanned path that is already
   * listed is listed under its current digest, and a path scanned twice has one digest.
   */
  ghost predicate AgreesWith(d: DigestDict, files: seq<ScannedFile>, digest: seq<byte> -> Digest)
  {
    (forall i, h :: 0 <= i < |files| && files[i].path in Lookup(d, h) ==> h == digest(files[i].content)) &&
    (forall i, j :: 0 <= i < |files| && 0 <= j < |files| && files[i].path == files[j].path ==>
                    digest(files[i].content) == digest(files[j].content))
  }

  /** Where a path listed after the corrected fold comes from: the saved list or a scanned file. */
  lemma {:induction false} ScanDistinctOrigin(d: DigestDict, files: seq<ScannedFile>, digest: seq<byte> -> Digest, h: Digest, p: Path)
    requires p in Lookup(ScanDistinct(d, files, digest), h)
    ensures p in Lookup(d, h) || exists i :: 0 <= i < |files| && files[i].path == p && digest(files[i].content) == h
  {
    ScanDistinctSameMembers(d, files, digest);
    ScanLists(d, files, digest);
    if p !in Lookup(d, h) {
      PathsWithDigestFrom(files, digest, h, p);
    }
  }

  /**
   * When the saved results agree with the files scanned now, the corrected fold lists
   * every path under one digest only.
   */
  lemma ScanDistinctOneDigest(d: DigestDict, files: seq<ScannedFile>, digest: seq<byte> -> Digest)
    requires OneDigestPerPath(d) && AgreesWith(d, files, digest)
    ensures OneDigestPerPath(ScanDistinct(d, files, digest))
  {
    var r := ScanDistinct(d, files, digest);
    forall h1, h2, p | p in Lookup(r, h1) && p in Lookup(r, h2)
      ensures h1 == h2
    {
      ScanDistinctOrigin(d, files, digest, h1, p);
      ScanDistinctOrigin(d, files, digest, h2, p);
    }
  }

  /** Scanning one more file of `files` inserts its path into the scan of the files before it. */
  lemma ScanPrefixStep(d: DigestDict, files: seq<ScannedFile>, digest: seq<byte> -> Digest, i: nat)
    requires i < |files|
    ensures Scan(d, files[..i + 1], digest) == Insert(Scan(d, files[..i], digest), digest(files[i].content), files[i].path)
  {
    assert files[..i + 1][..i] == files[..i];
  }

  /** The dictionary `duplicate_dict`, updated in place by `find_duplicates`. */
  class DuplicateDict {
    var keys: seq<Digest>
    var lists: map<Digest, seq<Path>>

    function Value(): (value: DigestDict)
      reads this
    {
      DigestDict(keys, lists)
    }

    ghost predicate Valid()
      reads this
    {
      WellFormed(Value())
    }

    /** A dictionary holding `initial`: `{}`, or results loaded from a saved file. */
    constructor (initial: DigestDict)
      requires WellFormed(initial)
      ensures Valid() && Value() == initial
    {
      keys := initial.keys;
      lists := initial.lists;
    }

    /** duplicate_checker.py:22-25, for one file. */
    method Add(h: Digest, p: Path)
      requires Valid()
      modifies this
      ensures Valid()
      ensures Value() == Insert(old(Value()), h, p)
    {
      if h in lists {
        lists := lists[h := lists[h] + [p]];
      } else {
        keys := keys + [h];
        lists := lists[h := [p]];
      }
    }
  }

  /**
   * `find_duplicates(base_directory, duplicate_dict)`: the files found under the directory
   * are `files`, in walk order. Each is hashed with the default block size and added to
   * `dict`, which is also returned.
   */
  method FindDuplicates(files: seq<ScannedFile>, dict: DuplicateDict, digest: seq<byte> -> Digest)
    returns (result: DuplicateDict)
    requires dict.Valid()
    modifies dict
    ensures result == dict && dict.Valid()
    ensures dict.Value() == Scan(old(dict.Value()), files, digest)
  {
    var i := 0;
    while i < |files|
      invariant 0 <= i <= |files|
      invariant dict.Valid()
      invariant dict.Value() == Scan(old(dict.Value()), files[..i], digest)
    {
      var fileHash;
      ghost var blocks;
      fileHash, blocks := HashFile(files[i].content, DefaultBits, digest);
      dict.Add(fileHash, files[i].path);
      ScanPrefixStep(old(dict.Value()), files, digest, i);
      i := i + 1;
    }
    assert files[..|files|] == files;
    result := dict;
  }
}
